=== FILE: README.md ===
# Jumbled chat relay — a Dafny model

The relay (`app.py`) is a Flask-SocketIO chat server. Clients join a room under a
name and send messages. Each message goes to the whole room together with a
"jumbled" copy, in which the letters of every word are shuffled. An admin panel
can switch a room to "normal" mode, where the jumbled copy is the original text.

This project models the part of the relay that does the work:

- `text.dfy`, module `Text`: Python's `str.split()` with no argument and
  `' '.join(...)`. The separators are the code points for which
  `str.isspace()` holds.
- `permutation.dfy`, module `Permutation`: reordering a word by an index
  permutation. This is what one call of `random.sample(word, len(word))`
  produces.
- `jumble.dfy`, module `Jumble`: `jumble_message`. The random draws are a
  parameter, one draw per word.
- `decimal.dfy`, module `Decimal`: how an f-string prints a numeric room id.
- `relay.dfy`, module `Relay`: the three tables `users`, `channel_users` and
  `channel_modes`, and the four handlers. Each handler is a pure function from
  a state and the event's fields to the next state and the list of `message`
  events it emits (`Step`). An emitted event is an `Outbound`: its target (a
  room, or the session that caused the event) and its payload.
- `runs.dfy`, module `Runs`: runs of events handled one after another,
  and what such runs keep true.

A room id arrives in a JSON payload, so it can be a string or a number. Python
keeps `"149"` and `149` apart, and the model does too (`Room = Named | Numbered`).
The admin exception at app.py:47 therefore applies only to the string `"149"`.

The comment at app.py:11 describes `channel_users[room]` as the names currently
in the room. That is guaranteed when every join comes from a session that has
not joined before, under a name no live session in that room has; it can fail
otherwise, as `Runs.SharedNameBreaksRoster` and `Runs.RejoinLeavesStaleName`
show. `Runs.OrderlyRunKeepsRosters` proves the guarantee. The model follows
the code.

## Model

| member | source | states |
|---|---|---|
| Text.IsSpace | app.py:23 | Holds exactly for the code points Python's `str.isspace()` accepts, the separators of `str.split()`. |
| Text.Split | app.py:23 | Every piece `str.split()` returns is a non-empty run of non-separator characters. |
| Text.Gaps | app.py:23 | For every string, there are separator runs, all blank and non-empty between two pieces, that rebuild the string when put back between the pieces. So every piece is a maximal separator-free run, bounded by separators or by the ends of the input. |
| Text.Join | app.py:28 | `' '.join`: no words give the empty string, one word gives itself, and more words are joined with one space between neighbours. Its contract is stated through `Text.SplitJoin` and `Text.JoinNormalized`. |
| Text.SplitKeepsNonSpace | app.py:23 | Splitting drops exactly the separators: the pieces, concatenated, are the input with its whitespace removed. |
| Text.SplitCountsWordStarts | app.py:23 | There is one piece for each place where a word starts, that is, each non-separator at the start or after a separator. |
| Text.SplitEmptyIffBlank | app.py:23 | A message yields no words exactly when it is all whitespace, including the empty message. |
| Text.SplitJoin | app.py:23-28 | Splitting the single-space join of whitespace-free words gives those words back. |
| Text.JoinNormalized | app.py:28 | The single-space join of words has no leading or trailing separator, and every separator in it is one space between two non-separators. |
| Text.JoinSplitFixedIffNormalized | app.py:23-28 | Splitting and re-joining a string gives the same string if and only if it is already normalized. |
| Permutation.Apply | app.py:25 | The draw's result has one character per index of the draw. Which character stands where is stated by `Jumble.JumbleWord`: the i-th is the word's character at the draw's i-th index. |
| Permutation.PermutationRearranges | app.py:25 | Reordering a word by an index permutation gives a word of the same length with every character occurring as often as before. |
| Permutation.Arrange | app.py:25 | For every rearrangement of a word there is an index permutation that produces it, so every outcome `random.sample` can produce is reached by some draw. |
| Permutation.ApplyIdentity | app.py:25 | The identity draw leaves the word as it is. |
| Permutation.PermutationDistinct | app.py:25 | A draw never takes one position of the word twice. |
| Jumble.JumbleWord | app.py:25 | A word longer than one character becomes the word reordered by its draw, with the same length and character counts. A shorter word is returned as is. |
| Jumble.JumbleWords | app.py:24-27 | The list comprehension: one result per word, the i-th being the i-th word jumbled by the i-th draw. |
| Jumble.JumbleMessage | app.py:22-28 | The output has as many words as the input. Output word i has the same length and character counts as input word i. Words of at most one character are unchanged. The output has no leading, trailing or repeated separator. |
| Jumble.JumbleOutcomes | app.py:22-28 | A string is an output for some choice of draws if and only if it is a single-space join of the input's words, each one rearranged. |
| Jumble.DrawsFor | app.py:24-27 | Given rearranged words, the draws built for them are valid and make the comprehension produce exactly those words. |
| Relay.ModeOf | app.py:64 | The stored mode of the room when it has one, and "jumbled" otherwise. |
| Relay.RoomText | app.py:87 | A string room id prints as itself. A numeric id prints as its decimal text: digits after an optional minus sign, with no leading zero, reading back as the number. With the round trip this fixes the text `str(n)` prints. |
| Relay.JoinedText | app.py:48 | The join announcement is the name followed by " has joined the chat.". |
| Relay.LeftText | app.py:99 | The departure notice is the name followed by " has left the chat.". |
| Relay.ModeChangedText | app.py:87 | The mode notice starts with "Admin has changed channel ", then the channel as printed, then " mode to ", the mode and a full stop. |
| Relay.NoticesIdentifyUser | app.py:48 | A join or departure notice determines the user's name, and no join announcement equals any departure notice. |
| Relay.ModeNoticeIdentifiesMode | app.py:87 | For one channel, the mode notice determines the mode. |
| Relay.HandleJoin | app.py:30-54 | Sets `users[sid]` to the room and name, adds the name to the room's roster (creating it), and changes no other room and no mode. It emits nothing exactly for "admin" in room "149". Otherwise it first announces the joiner to the room. It sends the joiner a second event exactly when the roster minus the joiner is non-empty, and that event lists exactly that set. |
| Relay.HandleMessage | app.py:56-75 | Leaves the state unchanged and emits one chat event to the room, carrying the sender's name and the original text. In mode "normal" the jumbled text is the original. In any other mode, including the default and unrecognised strings, the jumbled text is a jumble of the original. |
| Relay.HandleAdminModeChange | app.py:77-87 | Stores the given mode for the channel whatever its value, and changes no other channel's mode, no session and no roster. It emits one notice to that channel. |
| Relay.HandleDisconnect | app.py:89-99 | An unknown session changes nothing and emits nothing. For a known session it forgets the session, keeps every other session, and removes the name from its room's roster. It deletes the roster exactly when that leaves it empty, changes no other room and no mode, and emits one departure notice to the room. |
| Relay.DisconnectIdempotent | app.py:89-99 | Disconnecting the same session twice: the second call changes nothing and emits nothing. |
| Relay.NormalModeRelaysVerbatim | app.py:64-66 | After the admin sets a channel to "normal", a message there is relayed with its jumbled text equal to the original. |
| Relay.IrregularSpacingAlwaysAltered | app.py:64-68 | Outside "normal" mode, a message with a leading, trailing, doubled or non-space separator is always altered, whatever the draws. |
| Relay.NumericAdminRoomIsAnnounced | app.py:47 | A join as "admin" to the string room "149" is silent. A join to the numeric room 149 is announced. |
| Relay.IsAdminPanel | app.py:47 | Holds exactly for the name "admin" in the string room "149". `Relay.NumericAdminRoomIsAnnounced` shows that the numeric room 149 does not match. |
| Decimal.IntText | app.py:87 | `str(n)` of an integer: non-empty, with a leading minus sign exactly when the number is negative, and no leading zero after it (a negative number's first digit is never zero). With `Decimal.IntTextRoundTrip` this fixes the text exactly. |
| Decimal.IntTextRoundTrip | app.py:87 | The decimal text of a numeric channel id in the mode notice reads back as that number, so distinct numeric ids print differently. A string id and a numeric id can still print alike, as `"149"` and `149` do. |
| Runs.Dispatch | app.py:30-99 | Routes each of the four Socket.IO events to its handler. Only the admin panel's mode change touches the modes, and a chat message changes no table. |
| Runs.DispatchKeepsNoEmptyRoster | app.py:30-99 | If no roster is empty before an event, none is empty after it. |
| Runs.RunKeepsNoEmptyRoster | app.py:30-99 | No roster is empty after any run that starts with none empty, such as a run from start-up. |
| Runs.JoinKeepsOrderly | app.py:37-43 | A join by a new session, under a name no live session in the room has, keeps every roster equal to the names of the room's live sessions. |
| Runs.DisconnectKeepsOrderly | app.py:92-98 | When rosters match live sessions and no two live sessions share a room and a name, a disconnect keeps both true. |
| Runs.OrderlyRunKeepsRosters | app.py:11-12 | In a run whose joins are all fresh, every roster equals the set of names of the room's live sessions at the end of the run, and no two live sessions share a room and a name. Every prefix of such a run is one too, so this holds after every step. |
| Runs.SharedNameBreaksRoster | app.py:92-98 | Two sessions joining one room as "ann" share a roster entry. When the first leaves, the name is gone while the second session is still live. |
| Runs.RejoinLeavesStaleName | app.py:37 | A session that joins a second room leaves its name on the first room's roster with no live session behind it. |
| Runs.ModeOnlyChangedByAdmin | app.py:84 | Over any run without a mode change for a room, the mode that messages to that room see stays the same. |
| Runs.DefaultModeIsJumbled | app.py:64 | A room with no stored mode, which is every room at start-up, is in "jumbled" mode after any run without a mode change for it. |

## Left out

- Flask application setup, the `/` route, template rendering and `socketio.run` (app.py:5-6, 17-19, 101-102): these are HTTP and template I/O.
- Socket.IO delivery: `join_room`, the fan-out of a broadcast to the members of a room, and how `request.sid` is obtained. `emit` is modelled as appending to the output list. The session id is a parameter of the handlers.
- Randomness: `random.sample` is replaced by the `draws` parameter, one draw per word, which must be a permutation for each word of more than one character and is ignored for shorter words. How uniform the draws are is a question of probability and is not modelled. `Jumble.JumbleOutcomes` and `Permutation.Arrange` show that every outcome `random.sample` can produce is reached by some choice of draws.
- The draws also include orders the generator cannot produce. `random.sample` is a deterministic function of the Mersenne Twister state, which has fewer than 2^19937 values, so for a word of 2081 or more characters some orders are never drawn. The model's draws are a superset of the reachable ones.
- Malformed payloads: a missing key raises `KeyError` in the source, and a message field that is not a string fails inside `split` when the room is not in "normal" mode. In "normal" mode it is relayed unchanged (app.py:65-66). Inputs are modelled as well-typed records.
- Room ids that are JSON values other than strings and integers, such as floats, booleans, null or lists, are not modelled. Python's `True == 1` and `1.0 == 1` key equalities are not modelled either.
- The text of the "already in channel" notice: `', '.join(others)` follows the iteration order of a Python set, which is unspecified. The payload is modelled as the set itself (`AlreadyInChannel`), with the fixed prefix "Users already in the channel: " left implicit.
- Relay.HandleMessage: requires that the draws fit the message's words when the room is not in "normal" mode. This is a condition on the parameter that stands in for randomness, not a demand the source makes of its callers.
- Concurrency: Socket.IO may run handlers concurrently on the shared dictionaries. The model handles events one at a time, each to completion.
- Python's `str.isspace()` is modelled by a fixed table of code points (`Text.IsSpace`). The table is the one in the Unicode version that current CPython ships. Changes between Unicode versions are not modelled.

=== FILE: decimal.dfy ===
/**
  Python's `str()` of an integer, as used when a numeric room id is written
  into a system notice by an f-string (app.py:87): an optional minus sign
  followed by the decimal digits, without leading zeros.
 */
module Decimal {

  predicate IsDigit(c: char) {
    '0' <= c <= '9'
  }

  predicate AllDigits(s: string) {
    forall i :: 0 <= i < |s| ==> IsDigit(s[i])
  }

  function DigitValue(c: char): nat
    requires IsDigit(c)
  {
    c as int - '0' as int
  }

  function DigitChar(d: nat): (c: char)
    requires d < 10
    ensures IsDigit(c) && DigitValue(c) == d
  {
    "0123456789"[d]
  }

  /** `str(n)` for a non-negative `n`. */
  function NatText(n: nat): (s: string)
    ensures |s| > 0 && AllDigits(s)
    ensures n > 0 ==> s[0] != '0'
    ensures |s| > 1 ==> s[0] != '0'
  {
    if n < 10 then [DigitChar(n)] else NatText(n / 10) + [DigitChar(n % 10)]
  }

  /** `int(s)` for a string of decimal digits. */
  function NatValue(s: string): nat
    requires AllDigits(s)
  {
    if |s| == 0 then 0 else NatValue(s[..|s| - 1]) * 10 + DigitValue(s[|s| - 1])
  }

  /** `str(n)`: a minus sign exactly for negative numbers, then the digits
      of the magnitude without leading zeros. */
  function IntText(n: int): (s: string)
    ensures |s| > 0
    ensures s[0] == '-' <==> n < 0
    ensures n < 0 ==> |s| > 1 && s[1] != '0'
    ensures n >= 0 && |s| > 1 ==> s[0] != '0'
  {
    if n < 0 then "-" + NatText(-n) else NatText(n)
  }

  function IntValue(s: string): int
    requires |s| > 0
    requires AllDigits(if s[0] == '-' then s[1..] else s)
  {
    if s[0] == '-' then 0 - NatValue(s[1..]) as int else NatValue(s)
  }

  /** Reading back the digits gives the number. */
  lemma {:induction false} NatTextRoundTrip(n: nat)
    ensures NatValue(NatText(n)) == n
  {
    if n >= 10 {
      var s := NatText(n);
      NatTextRoundTrip(n / 10);
      assert s[..|s| - 1] == NatText(n / 10);
    }
  }

  /** Reading back the text of a negative number gives the number. */
  lemma NegTextRoundTrip(m: nat)
    requires m > 0
    ensures var s := "-" + NatText(m); s[1..] == NatText(m) && IntValue(s) == 0 - m
  {
    var s := "-" + NatText(m);
    assert s[1..] == NatText(m);
    NatTextRoundTrip(m);
  }

  /** Reading back `str(n)` gives `n`; so distinct numbers never render the
      same way. */
  lemma IntTextRoundTrip(n: int)
    ensures var s := IntText(n); AllDigits(if s[0] == '-' then s[1..] else s) && IntValue(s) == n
  {
    if n < 0 {
      NegTextRoundTrip(-n);
    } else {
      NatTextRoundTrip(n);
    }
  }
}

=== FILE: jumble.dfy ===
/**
  The jumble transform `jumble_message` (app.py:22-28): split the message on
  whitespace, reorder the characters of every word longer than one character
  by a random draw, keep shorter words, and re-join with single spaces.

  The random draws are a parameter: `draws[i]` is the index permutation that
  `random.sample` realises for word `i`. Every property below holds for every
  choice of draws, and `JumbleOutcomes` shows that the choices reach exactly
  the rearrangements of the words. That includes every output `random.sample`
  can produce, and for very long words also orders its generator never draws.
 */
module Jumble {
  import opened Text
  import opened Permutation

  /** What a draw for word `w` must be: a permutation of its positions when
      the word is long enough to be reordered, and anything otherwise (no
      draw is made for it). */
  predicate FitsWord(w: string, p: seq<nat>) {
    |w| > 1 ==> IsPermutation(p, |w|)
  }

  predicate FitsWords(ws: seq<string>, draws: seq<seq<nat>>) {
    |draws| == |ws| && forall i :: 0 <= i < |ws| ==> FitsWord(ws[i], draws[i])
  }

  /** One element of the list comprehension at app.py:24-27. */
  function JumbleWord(w: string, p: seq<nat>): (r: string)
    requires FitsWord(w, p)
    ensures |r| == |w| && multiset(r) == multiset(w)
    ensures |w| <= 1 ==> r == w
    ensures |w| > 1 ==> |p| == |w| && forall i :: 0 <= i < |w| ==> p[i] < |w| && r[i] == w[p[i]]
  {
    if |w| > 1 then
      PermutationRearranges(w, p);
      Apply(w, p)
    else w
  }

  function JumbleWords(ws: seq<string>, draws: seq<seq<nat>>): (rs: seq<string>)
    requires FitsWords(ws, draws)
    ensures |rs| == |ws|
    ensures forall i :: 0 <= i < |ws| ==> rs[i] == JumbleWord(ws[i], draws[i])
  {
    seq(|ws|, i requires 0 <= i < |ws| => JumbleWord(ws[i], draws[i]))
  }

  /** Reordering the characters of a word leaves a word: it stays non-empty
      and gains no separator. */
  lemma RearrangedWord(w: string, v: string)
    requires IsWord(w)
    requires multiset(v) == multiset(w)
    ensures IsWord(v)
  {
    assert |multiset(v)| == |v| && |multiset(w)| == |w|;
    forall i | 0 <= i < |v| ensures !IsSpace(v[i]) {
      assert v[i] in multiset(w);
    }
  }

  lemma JumbledAreWords(ws: seq<string>, draws: seq<seq<nat>>)
    requires AllWords(ws) && FitsWords(ws, draws)
    ensures AllWords(JumbleWords(ws, draws))
  {
    var rs := JumbleWords(ws, draws);
    forall i | 0 <= i < |rs| ensures IsWord(rs[i]) {
      RearrangedWord(ws[i], rs[i]);
    }
  }

  /** `jumble_message(message)` with the draws made explicit. The result has
      as many words as the message; its i-th word is a rearrangement of the
      message's i-th word (the same characters, each as often); words of at
      most one character come out as they went in; and the words are joined
      by single spaces with no separator at either end. */
  function JumbleMessage(message: string, draws: seq<seq<nat>>): (r: string)
    requires FitsWords(Split(message), draws)
    ensures |Split(r)| == |Split(message)|
    ensures forall i :: 0 <= i < |Split(message)| ==>
      |Split(r)[i]| == |Split(message)[i]| && multiset(Split(r)[i]) == multiset(Split(message)[i])
    ensures forall i :: 0 <= i < |Split(message)| && |Split(message)[i]| <= 1 ==>
      Split(r)[i] == Split(message)[i]
    ensures Normalized(r)
  {
    var ws := Split(message);
    var rs := JumbleWords(ws, draws);
    JumbledAreWords(ws, draws);
    SplitJoin(rs);
    JoinNormalized(rs);
    Join(rs)
  }

  /** The possible outputs for `message`: single-space joins of words that
      rearrange the message's words one by one. */
  predicate IsJumbleOf(message: string, out: string) {
    var ws := Split(message);
    && Normalized(out)
    && |Split(out)| == |ws|
    && forall i :: 0 <= i < |ws| ==> multiset(Split(out)[i]) == multiset(ws[i])
  }

  /** The draws that make `Jumble` produce the rearranged words `rs`. */
  function DrawsFor(ws: seq<string>, rs: seq<string>): (draws: seq<seq<nat>>)
    requires |rs| == |ws|
    requires forall i :: 0 <= i < |ws| ==> multiset(rs[i]) == multiset(ws[i])
    ensures FitsWords(ws, draws)
    ensures JumbleWords(ws, draws) == rs
  {
    var draws := seq(|ws|, i requires 0 <= i < |ws| => if |ws[i]| > 1 then Arrange(ws[i], rs[i]) else []);
    assert forall i :: 0 <= i < |ws| ==> JumbleWord(ws[i], draws[i]) == rs[i] by {
      forall i | 0 <= i < |ws| ensures JumbleWord(ws[i], draws[i]) == rs[i] {
        if |ws[i]| <= 1 {
          ShortRearrangement(ws[i], rs[i]);
        }
      }
    }
    draws
  }

  /** A word of at most one character has no rearrangement but itself. */
  lemma ShortRearrangement(w: string, v: string)
    requires |w| <= 1 && multiset(v) == multiset(w)
    ensures v == w
  {
    assert |multiset(v)| == |v| && |multiset(w)| == |w|;
    if |w| == 1 {
      assert v[0] in multiset(w);
    }
  }

  /** The draws reach exactly the rearrangements: a string is an output of
      `jumble_message(message)` for some draws if and only if it is a
      single-space join of the message's words, each rearranged. */
  lemma JumbleOutcomes(message: string, out: string)
    ensures (exists draws :: FitsWords(Split(message), draws) && JumbleMessage(message, draws) == out)
            <==> IsJumbleOf(message, out)
  {
    var ws := Split(message);
    if IsJumbleOf(message, out) {
      var rs := Split(out);
      var draws := DrawsFor(ws, rs);
      JoinSplitFixedIffNormalized(out);
      assert JumbleMessage(message, draws) == out;
    }
  }
}

=== FILE: permutation.dfy ===
/**
  Rearrangements of a sequence by an index permutation. The relay draws a
  random reordering of each word with `random.sample(word, len(word))`
  (app.py:25); here the draw is an explicit index sequence `p`, and the
  output of the draw is `Apply(w, p)`, whose i-th element is `w[p[i]]`.
 */
module Permutation {

  /** The indices 0, 1, ..., n - 1 in order. */
  function Range(n: nat): (r: seq<nat>)
    ensures |r| == n
    ensures forall i :: 0 <= i < n ==> r[i] == i
  {
    seq(n, i => i)
  }

  /** `p` lists every index below `n` exactly once, in some order. */
  predicate IsPermutation(p: seq<nat>, n: nat) {
    multiset(p) == multiset(Range(n))
  }

  predicate InBounds(p: seq<nat>, n: nat) {
    forall i :: 0 <= i < |p| ==> p[i] < n
  }

  /** The elements of `w` picked in the order `p` names them. */
  function Apply<T>(w: seq<T>, p: seq<nat>): (r: seq<T>)
    requires InBounds(p, |w|)
    ensures |r| == |p|
  {
    seq(|p|, i requires 0 <= i < |p| => w[p[i]])
  }

  /** A permutation of size `n` has `n` entries, each an index below `n`. */
  lemma PermutationInBounds(p: seq<nat>, n: nat)
    requires IsPermutation(p, n)
    ensures |p| == n && InBounds(p, n)
  {
    assert |multiset(p)| == |p|;
    forall i | 0 <= i < |p| ensures p[i] < n {
      assert p[i] in multiset(Range(n));
    }
  }

  lemma {:induction false} RangeCount(n: nat, x: nat)
    ensures multiset(Range(n))[x] == if x < n then 1 else 0
  {
    if n > 0 {
      RangeCount(n - 1, x);
      assert Range(n) == Range(n - 1) + [n - 1];
    }
  }

  /** A permutation never names the same index twice. */
  lemma PermutationDistinct(p: seq<nat>, n: nat, i: nat, j: nat)
    requires IsPermutation(p, n)
    requires i < j < |p|
    ensures p[i] != p[j]
  {
    if p[i] == p[j] {
      var x := p[i];
      assert p == p[..i] + [x] + p[i + 1..j] + [x] + p[j + 1..];
      assert multiset(p)[x] >= 2;
      RangeCount(n, x);
      assert false;
    }
  }

  /** Picking every index in order gives back the sequence itself. */
  lemma ApplyIdentity<T>(w: seq<T>)
    ensures Apply(w, Range(|w|)) == w
  {
  }

  /** Taking out the element at `k` takes one occurrence of it out of the
      multiset. */
  lemma RemoveAt<T>(r: seq<T>, k: nat)
    requires k < |r|
    ensures multiset(r) == multiset(r[..k] + r[k + 1..]) + multiset{r[k]}
  {
    assert r == r[..k] + [r[k]] + r[k + 1..];
  }

  /** Dropping an index from a pick drops the element it picked. */
  lemma ApplyRemoveAt<T>(w: seq<T>, r: seq<nat>, k: nat, rest: seq<nat>)
    requires InBounds(r, |w|) && k < |r|
    requires rest == r[..k] + r[k + 1..]
    ensures InBounds(rest, |w|)
    ensures multiset(Apply(w, r)) == multiset(Apply(w, rest)) + multiset{w[r[k]]}
  {
    var a := Apply(w, r);
    assert Apply(w, rest) == a[..k] + a[k + 1..];
    RemoveAt(a, k);
  }

  /** Two index sequences with the same indices still agree after taking
      the same index out of each. */
  lemma CancelOne<T>(q: seq<T>, r: seq<T>, k: nat)
    requires multiset(q) == multiset(r)
    requires |q| > 0 && k < |r| && r[k] == q[0]
    ensures multiset(q[1..]) == multiset(r[..k] + r[k + 1..])
  {
    var rest := r[..k] + r[k + 1..];
    RemoveAt(q, 0);
    RemoveAt(r, k);
    assert q[..0] + q[1..] == q[1..];
    forall y ensures multiset(q[1..])[y] == multiset(rest)[y] {
      assert multiset(q)[y] == multiset(q[1..])[y] + multiset{q[0]}[y];
      assert multiset(r)[y] == multiset(rest)[y] + multiset{q[0]}[y];
    }
  }

  /** Picking with two index sequences that hold the same indices (with
      multiplicity) picks the same elements (with multiplicity). */
  lemma {:induction false} ApplyMultiset<T>(w: seq<T>, q: seq<nat>, r: seq<nat>)
    requires InBounds(q, |w|) && InBounds(r, |w|)
    requires multiset(q) == multiset(r)
    ensures multiset(Apply(w, q)) == multiset(Apply(w, r))
    decreases |q|
  {
    if |q| > 0 {
      assert q[0] in multiset(r);
      var k := IndexOf(r, q[0]);
      var rest := r[..k] + r[k + 1..];
      CancelOne(q, r, k);
      ApplyRemoveAt(w, r, k, rest);
      ApplyRemoveAt(w, q, 0, q[1..]);
      ApplyMultiset(w, q[1..], rest);
    } else {
      assert |multiset(r)| == |r|;
    }
  }

  /** Every permutation of the positions of `w` yields a rearrangement of
      `w`: the same length and the same count of every element. */
  lemma PermutationRearranges<T>(w: seq<T>, p: seq<nat>)
    requires IsPermutation(p, |w|)
    ensures InBounds(p, |w|)
    ensures |Apply(w, p)| == |w|
    ensures multiset(Apply(w, p)) == multiset(w)
  {
    PermutationInBounds(p, |w|);
    ApplyMultiset(w, p, Range(|w|));
    ApplyIdentity(w);
  }

  /** The position of some occurrence of `x` in `s`. */
  function IndexOf<T(==)>(s: seq<T>, x: T): (i: nat)
    requires x in s
    ensures i < |s| && s[i] == x
  {
    if s[0] == x then 0 else 1 + IndexOf(s[1..], x)
  }

  /** The indices below `n` other than `j`, in order. */
  function Others(n: nat, j: nat): (r: seq<nat>)
    requires j < n
    ensures |r| == n - 1 && InBounds(r, n)
    ensures forall k :: 0 <= k < n - 1 ==> r[k] == if k < j then k else k + 1
  {
    Range(n)[..j] + Range(n)[j + 1..]
  }

  /** Picking from a sequence of indices below `n` gives indices below `n`. */
  lemma ApplyInBounds(w: seq<nat>, p: seq<nat>, n: nat)
    requires InBounds(w, n) && InBounds(p, |w|)
    ensures InBounds(Apply(w, p), n)
  {
  }

  /** Putting `j` first and then a permutation of the other indices,
      renumbered around `j`, is a permutation. */
  lemma LiftPermutation(p': seq<nat>, n: nat, j: nat)
    requires j < n
    requires IsPermutation(p', n - 1)
    ensures InBounds(p', n - 1)
    ensures IsPermutation([j] + Apply(Others(n, j), p'), n)
    ensures InBounds([j] + Apply(Others(n, j), p'), n)
  {
    var others := Others(n, j);
    PermutationInBounds(p', n - 1);
    var lifted := Apply(others, p');
    ApplyInBounds(others, p', n);
    assert multiset(lifted) == multiset(others) by {
      ApplyMultiset(others, p', Range(n - 1));
      ApplyIdentity(others);
    }
    assert multiset(Range(n)) == multiset(others) + multiset{j} by {
      RemoveAt(Range(n), j);
    }
    assert multiset([j] + lifted) == multiset{j} + multiset(lifted);
  }

  /** One step of `Arrange`: take the occurrence at `j` first, then the rest
      in the order `p'` picks them from `w` without position `j`. */
  lemma LiftApply<T>(w: seq<T>, v: seq<T>, j: nat, p': seq<nat>)
    requires |v| == |w| > 0 && j < |w| && w[j] == v[0]
    requires InBounds(p', |w| - 1)
    requires Apply(w[..j] + w[j + 1..], p') == v[1..]
    ensures InBounds([j] + Apply(Others(|w|, j), p'), |w|)
    ensures Apply(w, [j] + Apply(Others(|w|, j), p')) == v
  {
    var lifted := Apply(Others(|w|, j), p');
    var rest := w[..j] + w[j + 1..];
    forall i | 0 <= i < |v| ensures Apply(w, [j] + lifted)[i] == v[i] {
      if i > 0 {
        assert Apply(w, [j] + lifted)[i] == w[lifted[i - 1]];
        assert w[lifted[i - 1]] == rest[p'[i - 1]];
      }
    }
  }

  /** Every rearrangement `v` of `w` is reached by some permutation: the one
      returned here. With `PermutationRearranges` this says the outcomes of
      a draw are exactly the sequences with the same element counts as `w`. */
  function Arrange<T(==)>(w: seq<T>, v: seq<T>): (p: seq<nat>)
    requires multiset(v) == multiset(w)
    ensures IsPermutation(p, |w|) && InBounds(p, |w|)
    ensures Apply(w, p) == v
    decreases |v|
  {
    assert |multiset(v)| == |v| && |multiset(w)| == |w|;
    if |v| == 0 then []
    else
      assert v[0] in multiset(w);
      var j := IndexOf(w, v[0]);
      var rest := w[..j] + w[j + 1..];
      CancelOne(v, w, j);
      var p' := Arrange(rest, v[1..]);
      LiftPermutation(p', |w|, j);
      LiftApply(w, v, j, p');
      [j] + Apply(Others(|w|, j), p')
  }
}

=== FILE: relay.dfy ===
/**
  The relay's shared state (app.py:8-15) and its four event handlers
  (app.py:30-99), each a pure transition from a state and the event's
  fields to the next state and the list of `message` events it emits.

  Emitting (app.py:48, 54, 71, 87, 99) appends an `Outbound` to that list:
  where it goes (a room, or the one session that caused the event) and what
  it carries. The session id `request.sid` is an explicit parameter.
 */
module Relay {
  import opened Text
  import opened Jumble
  import Decimal

  type Sid = string
  type Username = string
  type Mode = string

  /** A room id as it arrives in a JSON payload: a string or a number.
      Python keeps `"149"` and `149` apart as dictionary keys and in `==`. */
  datatype Room = Named(name: string) | Numbered(number: int)

  /** What `users[sid]` holds: the room and name given at join. */
  datatype Session = Session(room: Room, username: Username)

  /** `users`, `channel_users` and `channel_modes`. */
  datatype State = State(
    users: map<Sid, Session>,
    channelUsers: map<Room, set<Username>>,
    channelModes: map<Room, Mode>)

  /** `room=...` broadcasts to a room; `to=request.sid` answers one session. */
  datatype Target = ToRoom(room: Room) | ToSession(sid: Sid)

  datatype Payload =
      /** A system line, such as a join, departure or mode notice. */
    | Notice(text: string)
      /** "Users already in the channel: " followed by the names, comma
          separated, in the iteration order of a Python set (unspecified). */
    | AlreadyInChannel(others: set<Username>)
      /** A chat message with both its text and its jumbled text. */
    | Chat(username: Username, original: string, jumbled: string)

  datatype Outbound = Outbound(target: Target, payload: Payload)

  datatype Step = Step(state: State, out: seq<Outbound>)

  /** The process starts with all three tables empty. */
  const Initial: State := State(map[], map[], map[])

  const DefaultMode: Mode := "jumbled"
  const NormalMode: Mode := "normal"

  /** The name and room of the admin panel's own connection. */
  const AdminName: Username := "admin"
  const AdminRoom: Room := Named("149")

  /** How `{room}` prints inside an f-string: a string as it is, a number as
      its decimal text without leading zeros, which reads back as the number. */
  function RoomText(room: Room): (t: string)
    ensures room.Named? ==> t == room.name
    ensures room.Numbered? ==>
      |t| > 0 && Decimal.AllDigits(if t[0] == '-' then t[1..] else t) && Decimal.IntValue(t) == room.number
    ensures room.Numbered? ==>
      var d := if t[0] == '-' then t[1..] else t; |d| > 0 && (|d| > 1 ==> d[0] != '0')
  {
    match room
    case Named(s) => s
    case Numbered(n) => Decimal.IntTextRoundTrip(n); Decimal.IntText(n)
  }

  /** `channel_modes.get(room, "jumbled")`: the stored mode if there is one,
      otherwise the default. */
  function ModeOf(st: State, room: Room): (m: Mode)
    ensures room in st.channelModes ==> m == st.channelModes[room]
    ensures room !in st.channelModes ==> m == DefaultMode
  {
    if room in st.channelModes then st.channelModes[room] else DefaultMode
  }

  /** The names recorded for `room`, or none when it has no entry. */
  function RosterOf(st: State, room: Room): set<Username> {
    if room in st.channelUsers then st.channelUsers[room] else {}
  }

  predicate IsAdminPanel(username: Username, room: Room) {
    username == AdminName && room == AdminRoom
  }

  const JoinedSuffix: string := " has joined the chat."
  const LeftSuffix: string := " has left the chat."
  const ModePrefix: string := "Admin has changed channel "

  /** The join announcement: the name, then a fixed suffix. */
  function JoinedText(username: Username): (t: string)
    ensures |t| == |username| + |JoinedSuffix|
    ensures t[..|username|] == username && t[|username|..] == JoinedSuffix
  {
    username + JoinedSuffix
  }

  /** The departure notice: the name, then a fixed suffix. */
  function LeftText(username: Username): (t: string)
    ensures |t| == |username| + |LeftSuffix|
    ensures t[..|username|] == username && t[|username|..] == LeftSuffix
  {
    username + LeftSuffix
  }

  /** The mode notice: a fixed prefix, the channel as printed, the mode and
      a full stop. */
  function ModeChangedText(channel: Room, mode: Mode): (t: string)
    ensures |t| == |ModePrefix| + |RoomText(channel)| + |" mode to "| + |mode| + 1
    ensures t[..|ModePrefix|] == ModePrefix
    ensures t[|ModePrefix|..|ModePrefix| + |RoomText(channel)|] == RoomText(channel)
    ensures t[|ModePrefix| + |RoomText(channel)|..|t| - |mode| - 1] == " mode to "
    ensures t[|t| - |mode| - 1..|t| - 1] == mode && t[|t| - 1] == '.'
  {
    ModePrefix + RoomText(channel) + " mode to " + mode + "."
  }

  /** A join or departure notice names one user, and the two kinds of notice
      never coincide. */
  lemma NoticesIdentifyUser(a: Username, b: Username)
    ensures JoinedText(a) == JoinedText(b) ==> a == b
    ensures LeftText(a) == LeftText(b) ==> a == b
    ensures JoinedText(a) != LeftText(b)
  {
    var j := JoinedText(a);
    var l := LeftText(b);
    assert j[|j| - 11] == JoinedSuffix[|JoinedSuffix| - 11] == 'd';
    assert l[|l| - 11] == LeftSuffix[|LeftSuffix| - 11] == 't';
  }

  /** For one channel, the mode notice determines the mode. */
  lemma ModeNoticeIdentifiesMode(channel: Room, m1: Mode, m2: Mode)
    ensures ModeChangedText(channel, m1) == ModeChangedText(channel, m2) ==> m1 == m2
  {
  }

  /** `handle_join`: record the session, add the name to the room's roster,
      and, unless this is the admin panel, announce the joiner to the room
      and tell the joiner who was already there. */
  function HandleJoin(st: State, sid: Sid, username: Username, room: Room): (r: Step)
    ensures r.state.users.Keys == st.users.Keys + {sid}
    ensures r.state.users[sid] == Session(room, username)
    ensures forall s :: s in st.users && s != sid ==> r.state.users[s] == st.users[s]
    ensures r.state.channelUsers.Keys == st.channelUsers.Keys + {room}
    ensures r.state.channelUsers[room] == RosterOf(st, room) + {username}
    ensures forall other :: other in st.channelUsers && other != room ==>
      r.state.channelUsers[other] == st.channelUsers[other]
    ensures r.state.channelModes == st.channelModes
    ensures r.out == [] <==> IsAdminPanel(username, room)
    ensures r.out != [] ==> r.out[0] == Outbound(ToRoom(room), Notice(JoinedText(username)))
    ensures |r.out| == 2 <==> !IsAdminPanel(username, room) && RosterOf(st, room) - {username} != {}
    ensures |r.out| == 2 ==>
      r.out[1] == Outbound(ToSession(sid), AlreadyInChannel(RosterOf(st, room) - {username}))
    ensures |r.out| <= 2
  {
    var roster := if room in st.channelUsers then st.channelUsers[room] + {username} else {username};
    var next := st.(users := st.users[sid := Session(room, username)],
                    channelUsers := st.channelUsers[room := roster]);
    if IsAdminPanel(username, room) then
      Step(next, [])
    else
      var announce := Outbound(ToRoom(room), Notice(JoinedText(username)));
      var others := next.channelUsers[room] - {username};
      assert others == RosterOf(st, room) - {username};
      if others != {} then
        Step(next, [announce, Outbound(ToSession(sid), AlreadyInChannel(others))])
      else
        Step(next, [announce])
  }

  /** `handle_message`: broadcast the message to the room together with its
      jumbled form. The room's mode decides the jumbled form: exactly the
      mode "normal" keeps the text as is; any other mode, the default
      "jumbled" and unrecognised strings alike, runs `jumble_message`, whose
      random draws are `draws`. Nothing in the state changes. */
  function HandleMessage(st: State, username: Username, room: Room, message: string,
                         draws: seq<seq<nat>>): (r: Step)
    requires ModeOf(st, room) != NormalMode ==> FitsWords(Split(message), draws)
    ensures r.state == st
    ensures |r.out| == 1 && r.out[0].target == ToRoom(room) && r.out[0].payload.Chat?
    ensures r.out[0].payload.username == username && r.out[0].payload.original == message
    ensures ModeOf(st, room) == NormalMode ==> r.out[0].payload.jumbled == message
    ensures ModeOf(st, room) != NormalMode ==> IsJumbleOf(message, r.out[0].payload.jumbled)
  {
    var jumbled := if ModeOf(st, room) == NormalMode then message else JumbleMessage(message, draws);
    Step(st, [Outbound(ToRoom(room), Chat(username, message, jumbled))])
  }

  /** `handle_admin_mode_change`: store `mode` for `channel` whatever it is,
      and notify the channel. */
  function HandleAdminModeChange(st: State, channel: Room, mode: Mode): (r: Step)
    ensures ModeOf(r.state, channel) == mode
    ensures r.state.channelModes.Keys == st.channelModes.Keys + {channel}
    ensures forall other :: other != channel ==> ModeOf(r.state, other) == ModeOf(st, other)
    ensures r.state.users == st.users && r.state.channelUsers == st.channelUsers
    ensures r.out == [Outbound(ToRoom(channel), Notice(ModeChangedText(channel, mode)))]
  {
    Step(st.(channelModes := st.channelModes[channel := mode]),
         [Outbound(ToRoom(channel), Notice(ModeChangedText(channel, mode)))])
  }

  /** `handle_disconnect`: for an unknown session, nothing. Otherwise forget
      the session, take its name off its room's roster (dropping the roster
      once it is empty), and tell the room the user left. */
  function HandleDisconnect(st: State, sid: Sid): (r: Step)
    ensures sid !in st.users ==> r == Step(st, [])
    ensures sid in st.users ==>
      var s := st.users[sid];
      && r.state.users.Keys == st.users.Keys - {sid}
      && (forall t :: t in r.state.users ==> r.state.users[t] == st.users[t])
      && RosterOf(r.state, s.room) == RosterOf(st, s.room) - {s.username}
      && (s.username in RosterOf(st, s.room) ==>
            (s.room in r.state.channelUsers <==> st.channelUsers[s.room] != {s.username}))
      && (s.username !in RosterOf(st, s.room) ==> r.state.channelUsers == st.channelUsers)
      && (forall other :: other != s.room ==>
            (other in r.state.channelUsers <==> other in st.channelUsers)
            && (other in st.channelUsers ==> r.state.channelUsers[other] == st.channelUsers[other]))
      && r.state.channelModes == st.channelModes
      && r.out == [Outbound(ToRoom(s.room), Notice(LeftText(s.username)))]
  {
    if sid !in st.users then
      Step(st, [])
    else
      var Session(room, username) := st.users[sid];
      var channelUsers :=
        if room in st.channelUsers && username in st.channelUsers[room] then
          var rest := st.channelUsers[room] - {username};
          if rest == {} then st.channelUsers - {room} else st.channelUsers[room := rest]
        else st.channelUsers;
      Step(st.(users := st.users - {sid}, channelUsers := channelUsers),
           [Outbound(ToRoom(room), Notice(LeftText(username)))])
  }

  // ---------------------------------------------------------------------
  // Properties relating handler calls
  // ---------------------------------------------------------------------

  /** A second disconnect of the same session changes nothing and emits
      nothing. */
  lemma DisconnectIdempotent(st: State, sid: Sid)
    ensures var first := HandleDisconnect(st, sid);
            HandleDisconnect(first.state, sid) == Step(first.state, [])
  {
  }

  /** Once the admin sets a channel to "normal", the next message there is
      relayed with its jumbled form equal to the original. */
  lemma NormalModeRelaysVerbatim(st: State, channel: Room, username: Username, message: string,
                                 draws: seq<seq<nat>>)
    ensures var after := HandleAdminModeChange(st, channel, NormalMode).state;
            HandleMessage(after, username, channel, message, draws).out[0].payload.jumbled == message
  {
  }

  /** In a room that is not in "normal" mode, a message with a doubled, leading,
      trailing or non-space separator is always altered: whatever the draws,
      the jumbled text differs from the original. */
  lemma IrregularSpacingAlwaysAltered(st: State, username: Username, room: Room, message: string,
                                      draws: seq<seq<nat>>)
    requires ModeOf(st, room) != NormalMode
    requires FitsWords(Split(message), draws)
    requires !Normalized(message)
    ensures HandleMessage(st, username, room, message, draws).out[0].payload.jumbled != message
  {
  }

  /** The admin-panel exception is tied to the string room id "149": a join as
      "admin" to the numeric room 149 is announced like any other. */
  lemma NumericAdminRoomIsAnnounced(st: State, sid: Sid)
    ensures HandleJoin(st, sid, AdminName, Numbered(149)).out != []
    ensures HandleJoin(st, sid, AdminName, AdminRoom).out == []
  {
  }
}

=== FILE: runs.dfy ===
/**
  Runs of the relay: events handled one at a time, each to completion
  (the relay's handlers share the three tables without locking), and what
  those runs keep true about the room rosters and modes.

  The comment at app.py:11 describes `channel_users[room]` as the names
  currently in that room. That is guaranteed when every join comes from a
  session that has not joined before, under a name no live session in that
  room has (`OrderlyRunKeepsRosters`); it can fail otherwise, as
  `SharedNameBreaksRoster` and `RejoinLeavesStaleName` show.
 */
module Runs {
  import opened Text
  import opened Jumble
  import opened Relay

  datatype Event =
    | OnJoin(sid: Sid, username: Username, room: Room)
    | OnMessage(username: Username, room: Room, message: string, draws: seq<seq<nat>>)
    | OnModeChange(channel: Room, mode: Mode)
    | OnDisconnect(sid: Sid)

  /** The random draws of a message event fit its words whenever they are used. */
  predicate Admissible(st: State, ev: Event) {
    ev.OnMessage? ==> (ModeOf(st, ev.room) != NormalMode ==> FitsWords(Split(ev.message), ev.draws))
  }

  /** The handler the transport calls for `ev`. Only the admin panel's
      event touches the modes, and a chat message touches nothing. */
  function Dispatch(st: State, ev: Event): (r: Step)
    requires Admissible(st, ev)
    ensures !ev.OnModeChange? ==> r.state.channelModes == st.channelModes
    ensures ev.OnMessage? ==> r.state == st
  {
    match ev
    case OnJoin(sid, username, room) => HandleJoin(st, sid, username, room)
    case OnMessage(username, room, message, draws) => HandleMessage(st, username, room, message, draws)
    case OnModeChange(channel, mode) => HandleAdminModeChange(st, channel, mode)
    case OnDisconnect(sid) => HandleDisconnect(st, sid)
  }

  predicate AdmissibleRun(st: State, evs: seq<Event>)
    decreases |evs|
  {
    |evs| == 0 || (Admissible(st, evs[0]) && AdmissibleRun(Dispatch(st, evs[0]).state, evs[1..]))
  }

  /** Handle `evs` in order; the outbound events of all steps, in order. */
  function Run(st: State, evs: seq<Event>): Step
    requires AdmissibleRun(st, evs)
    decreases |evs|
  {
    if |evs| == 0 then Step(st, [])
    else
      var first := Dispatch(st, evs[0]);
      var rest := Run(first.state, evs[1..]);
      Step(rest.state, first.out + rest.out)
  }

  // ---------------------------------------------------------------------
  // No empty rosters
  // ---------------------------------------------------------------------

  /** A roster entry exists only while it has a name in it. */
  predicate NoEmptyRoster(st: State) {
    forall room :: room in st.channelUsers ==> st.channelUsers[room] != {}
  }

  /** Every handler keeps rosters non-empty: join always adds its name, and
      disconnect deletes a roster that it empties. */
  lemma DispatchKeepsNoEmptyRoster(st: State, ev: Event)
    requires Admissible(st, ev)
    requires NoEmptyRoster(st)
    ensures NoEmptyRoster(Dispatch(st, ev).state)
  {
  }

  lemma {:induction false} RunKeepsNoEmptyRoster(st: State, evs: seq<Event>)
    requires AdmissibleRun(st, evs)
    requires NoEmptyRoster(st)
    ensures NoEmptyRoster(Run(st, evs).state)
    decreases |evs|
  {
    if |evs| > 0 {
      DispatchKeepsNoEmptyRoster(st, evs[0]);
      RunKeepsNoEmptyRoster(Dispatch(st, evs[0]).state, evs[1..]);
    }
  }

  // ---------------------------------------------------------------------
  // Rosters agree with live sessions
  // ---------------------------------------------------------------------

  predicate HasSession(st: State, room: Room, username: Username) {
    exists sid :: sid in st.users && st.users[sid] == Session(room, username)
  }

  /** The roster of every room is exactly the set of names of live sessions
      in that room. */
  predicate RostersMatchSessions(st: State) {
    && (forall sid :: sid in st.users ==> st.users[sid].username in RosterOf(st, st.users[sid].room))
    && (forall room, name :: room in st.channelUsers && name in st.channelUsers[room] ==>
          HasSession(st, room, name))
  }

  /** No two live sessions share both room and name. */
  predicate DistinctSessions(st: State) {
    forall s, t :: s in st.users && t in st.users && s != t ==> st.users[s] != st.users[t]
  }

  predicate Orderly(st: State) {
    RostersMatchSessions(st) && DistinctSessions(st)
  }

  /** A join by a session that has not joined before, under a name no live
      session in that room has. */
  predicate FreshJoin(st: State, sid: Sid, username: Username, room: Room) {
    sid !in st.users && !HasSession(st, room, username)
  }

  /** After a join, every live session's name is on its room's roster. */
  lemma JoinKeepsSessionsListed(st: State, sid: Sid, username: Username, room: Room)
    requires RostersMatchSessions(st)
    ensures var next := HandleJoin(st, sid, username, room).state;
            forall s :: s in next.users ==> next.users[s].username in RosterOf(next, next.users[s].room)
  {
  }

  /** After a join by a new session, every name on a roster belongs to a
      live session in that room. */
  lemma JoinKeepsNamesLive(st: State, sid: Sid, username: Username, room: Room)
    requires RostersMatchSessions(st)
    requires sid !in st.users
    ensures var next := HandleJoin(st, sid, username, room).state;
            forall r, name :: r in next.channelUsers && name in next.channelUsers[r] ==> HasSession(next, r, name)
  {
  }

  /** A fresh join adds a session that no live session duplicates. */
  lemma JoinKeepsDistinct(st: State, sid: Sid, username: Username, room: Room)
    requires DistinctSessions(st)
    requires FreshJoin(st, sid, username, room)
    ensures DistinctSessions(HandleJoin(st, sid, username, room).state)
  {
  }

  /** The three parts are separate lemmas so that each proof stays small. */
  lemma JoinKeepsOrderly(st: State, sid: Sid, username: Username, room: Room)
    requires Orderly(st)
    requires FreshJoin(st, sid, username, room)
    ensures Orderly(HandleJoin(st, sid, username, room).state)
  {
    JoinKeepsSessionsListed(st, sid, username, room);
    JoinKeepsNamesLive(st, sid, username, room);
    JoinKeepsDistinct(st, sid, username, room);
  }

  /** The steps below point the solver at the surviving session of each
      name; without them the proof is close to the solver's budget. */
  lemma DisconnectKeepsOrderly(st: State, sid: Sid)
    requires Orderly(st)
    ensures Orderly(HandleDisconnect(st, sid).state)
  {
    if sid in st.users {
      var gone := st.users[sid];
      var next := HandleDisconnect(st, sid).state;
      forall s | s in next.users
        ensures next.users[s].username in RosterOf(next, next.users[s].room)
      {
        assert s in st.users && s != sid && st.users[s] != gone;
        var r := st.users[s].room;
        if r != gone.room {
          assert RosterOf(next, r) == RosterOf(st, r);
        }
      }
      forall r, name | r in next.channelUsers && name in next.channelUsers[r]
        ensures HasSession(next, r, name)
      {
        assert Session(r, name) != gone by {
          if r == gone.room {
            assert name in RosterOf(next, r);
          }
        }
        assert name in RosterOf(st, r) by {
          if r == gone.room {
            assert name in RosterOf(next, r);
          }
        }
        var s :| s in st.users && st.users[s] == Session(r, name);
        assert s in next.users;
      }
    }
  }

  lemma DispatchKeepsOrderly(st: State, ev: Event)
    requires Admissible(st, ev)
    requires Orderly(st)
    requires ev.OnJoin? ==> FreshJoin(st, ev.sid, ev.username, ev.room)
    ensures Orderly(Dispatch(st, ev).state)
  {
    match ev
    case OnJoin(sid, username, room) => JoinKeepsOrderly(st, sid, username, room);
    case OnMessage(_, _, _, _) =>
    case OnModeChange(channel, mode) =>
      var next := Dispatch(st, ev).state;
      assert next.users == st.users && next.channelUsers == st.channelUsers;
      assert forall room, name :: HasSession(next, room, name) == HasSession(st, room, name);
    case OnDisconnect(sid) => DisconnectKeepsOrderly(st, sid);
  }

  /** Every join in the run is a `FreshJoin` at the point it happens. */
  predicate FreshJoins(st: State, evs: seq<Event>)
    requires AdmissibleRun(st, evs)
    decreases |evs|
  {
    |evs| == 0 ||
    ((evs[0].OnJoin? ==> FreshJoin(st, evs[0].sid, evs[0].username, evs[0].room))
     && FreshJoins(Dispatch(st, evs[0]).state, evs[1..]))
  }

  /** In a run where sessions join once and never share a name within a
      room, every roster is the set of names of the room's live sessions
      after every step. */
  lemma {:induction false} OrderlyRunKeepsRosters(st: State, evs: seq<Event>)
    requires AdmissibleRun(st, evs)
    requires Orderly(st)
    requires FreshJoins(st, evs)
    ensures Orderly(Run(st, evs).state)
    decreases |evs|
  {
    if |evs| > 0 {
      DispatchKeepsOrderly(st, evs[0]);
      OrderlyRunKeepsRosters(Dispatch(st, evs[0]).state, evs[1..]);
    }
  }

  /** Two sessions joining one room under one name share a roster entry, so
      the first disconnect takes the name away while the second session is
      still live. */
  lemma SharedNameBreaksRoster()
    ensures
      var room := Named("1");
      var a := HandleJoin(Initial, "s1", "ann", room).state;
      var b := HandleJoin(a, "s2", "ann", room).state;
      var c := HandleDisconnect(b, "s1").state;
      && Orderly(a)
      && "s2" in c.users && c.users["s2"] == Session(room, "ann")
      && "ann" !in RosterOf(c, room)
      && !RostersMatchSessions(c)
  {
  }

  /** A session that joins a second room keeps its name on the first room's
      roster with no live session behind it, since the session record is
      overwritten without cleaning up. */
  lemma RejoinLeavesStaleName()
    ensures
      var a := HandleJoin(Initial, "s1", "ann", Named("1")).state;
      var b := HandleJoin(a, "s1", "ann", Named("2")).state;
      && Orderly(a)
      && "ann" in RosterOf(b, Named("1"))
      && !HasSession(b, Named("1"), "ann")
      && !RostersMatchSessions(b)
  {
  }

  // ---------------------------------------------------------------------
  // Modes
  // ---------------------------------------------------------------------

  /** Only a mode change for `room` changes the mode a message to `room`
      sees. */
  lemma {:induction false} ModeOnlyChangedByAdmin(st: State, evs: seq<Event>, room: Room)
    requires AdmissibleRun(st, evs)
    requires forall i :: 0 <= i < |evs| ==> !(evs[i].OnModeChange? && evs[i].channel == room)
    ensures ModeOf(Run(st, evs).state, room) == ModeOf(st, room)
    decreases |evs|
  {
    if |evs| > 0 {
      assert !(evs[0].OnModeChange? && evs[0].channel == room);
      ModeOnlyChangedByAdmin(Dispatch(st, evs[0]).state, evs[1..], room);
    }
  }

  /** A room with no stored mode, as every room at start-up, reads "jumbled"
      after any run without a mode change for it. */
  lemma DefaultModeIsJumbled(st: State, evs: seq<Event>, room: Room)
    requires room !in st.channelModes
    requires AdmissibleRun(st, evs)
    requires forall i :: 0 <= i < |evs| ==> !(evs[i].OnModeChange? && evs[i].channel == room)
    ensures ModeOf(Run(st, evs).state, room) == DefaultMode
  {
    ModeOnlyChangedByAdmin(st, evs, room);
  }
}

=== FILE: text.dfy ===
/**
  Whitespace splitting and single-space joining of chat text, as done by
  Python's `str.split()` (no argument) and `' '.join(...)` in the relay's
  jumble transform (app.py:23, app.py:28).
 */
module Text {

  /** The code points Python's `str.split()` treats as separators:
      those for which `str.isspace()` holds. */
  predicate IsSpace(c: char) {
    var k := c as int;
    || (0x09 <= k <= 0x0D)
    || (0x1C <= k <= 0x20)
    || k == 0x85 || k == 0xA0 || k == 0x1680
    || (0x2000 <= k <= 0x200A)
    || k == 0x2028 || k == 0x2029 || k == 0x202F || k == 0x205F || k == 0x3000
  }

  /** A word: a non-empty run of non-separator characters. */
  predicate IsWord(w: string) {
    |w| > 0 && forall i :: 0 <= i < |w| ==> !IsSpace(w[i])
  }

  predicate AllWords(ws: seq<string>) {
    forall i :: 0 <= i < |ws| ==> IsWord(ws[i])
  }

  predicate Blank(s: string) {
    forall i :: 0 <= i < |s| ==> IsSpace(s[i])
  }

  /** The shape of `' '.join(words)` output: no separator at either end, and
      every separator is one plain space standing between two word characters. */
  predicate Normalized(s: string) {
    forall i :: 0 <= i < |s| && IsSpace(s[i]) ==>
      s[i] == ' ' && 0 < i < |s| - 1 && !IsSpace(s[i - 1]) && !IsSpace(s[i + 1])
  }

  /** Length of the longest separator-free prefix of `s`. */
  function WordEnd(s: string): (n: nat)
    ensures n <= |s|
    ensures forall i :: 0 <= i < n ==> !IsSpace(s[i])
    ensures n == |s| || IsSpace(s[n])
  {
    if |s| == 0 || IsSpace(s[0]) then 0 else 1 + WordEnd(s[1..])
  }

  /** `s.split()`: the maximal separator-free runs of `s`, in order; runs of
      separators of any length (and any at either end) produce no piece. */
  function Split(s: string): (ws: seq<string>)
    ensures AllWords(ws)
    decreases |s|
  {
    if |s| == 0 then []
    else if IsSpace(s[0]) then Split(s[1..])
    else
      var n := WordEnd(s);
      [s[..n]] + Split(s[n..])
  }

  /** `' '.join(ws)`. */
  function Join(ws: seq<string>): string {
    if |ws| == 0 then ""
    else if |ws| == 1 then ws[0]
    else ws[0] + " " + Join(ws[1..])
  }

  function Concat(ws: seq<string>): string {
    if |ws| == 0 then "" else ws[0] + Concat(ws[1..])
  }

  /** The characters of `s` that are not separators, in order. */
  function NonSpace(s: string): string {
    if |s| == 0 then ""
    else (if IsSpace(s[0]) then "" else [s[0]]) + NonSpace(s[1..])
  }

  /** Number of positions of `s` where a word begins: a non-separator that is
      the first character, or follows a separator. `afterSpace` says whether
      the position before `s` counts as a separator (or as the start). */
  function WordStarts(s: string, afterSpace: bool): nat {
    if |s| == 0 then 0
    else (if afterSpace && !IsSpace(s[0]) then 1 else 0) + WordStarts(s[1..], IsSpace(s[0]))
  }

  // ---------------------------------------------------------------------
  // Split against independent descriptions of the same pieces
  // ---------------------------------------------------------------------

  lemma {:induction false} NonSpaceAppend(a: string, b: string)
    ensures NonSpace(a + b) == NonSpace(a) + NonSpace(b)
    decreases |a|
  {
    if |a| == 0 {
      assert a + b == b;
    } else {
      assert (a + b)[1..] == a[1..] + b;
      NonSpaceAppend(a[1..], b);
    }
  }

  lemma {:induction false} NonSpaceOfWord(w: string)
    requires forall i :: 0 <= i < |w| ==> !IsSpace(w[i])
    ensures NonSpace(w) == w
    decreases |w|
  {
    if |w| > 0 {
      NonSpaceOfWord(w[1..]);
      assert w == [w[0]] + w[1..];
    }
  }

  /** Splitting loses exactly the separators: the pieces, laid end to end,
      are the non-separator characters of the input in their original order. */
  lemma {:induction false} SplitKeepsNonSpace(s: string)
    ensures Concat(Split(s)) == NonSpace(s)
    decreases |s|
  {
    if |s| == 0 {
    } else if IsSpace(s[0]) {
      SplitKeepsNonSpace(s[1..]);
    } else {
      var n := WordEnd(s);
      assert s == s[..n] + s[n..];
      SplitKeepsNonSpace(s[n..]);
      NonSpaceAppend(s[..n], s[n..]);
      NonSpaceOfWord(s[..n]);
      assert ([s[..n]] + Split(s[n..]))[1..] == Split(s[n..]);
    }
  }

  lemma {:induction false} WordStartsAtBoundary(t: string)
    requires |t| == 0 || IsSpace(t[0])
    ensures WordStarts(t, false) == WordStarts(t, true)
  {
  }

  lemma {:induction false} WordStartsInsideWord(t: string, m: nat)
    requires m <= |t|
    requires forall i :: 0 <= i < m ==> !IsSpace(t[i])
    ensures WordStarts(t, false) == WordStarts(t[m..], false)
    decreases m
  {
    if m > 0 {
      WordStartsInsideWord(t[1..], m - 1);
      assert t[1..][m - 1..] == t[m..];
    }
  }

  /** The number of pieces is the number of word beginnings in the input. */
  lemma {:induction false} SplitCountsWordStarts(s: string)
    ensures |Split(s)| == WordStarts(s, true)
    decreases |s|
  {
    if |s| == 0 {
    } else if IsSpace(s[0]) {
      SplitCountsWordStarts(s[1..]);
    } else {
      var n := WordEnd(s);
      SplitCountsWordStarts(s[n..]);
      WordStartsInsideWord(s[1..], n - 1);
      assert s[1..][n - 1..] == s[n..];
      WordStartsAtBoundary(s[n..]);
    }
  }

  /** A string splits into nothing exactly when it is all separators
      (the empty string included). */
  lemma {:induction false} SplitEmptyIffBlank(s: string)
    ensures Split(s) == [] <==> Blank(s)
    decreases |s|
  {
    if |s| > 0 && IsSpace(s[0]) {
      SplitEmptyIffBlank(s[1..]);
      assert Blank(s) <==> Blank(s[1..]) by {
        if Blank(s[1..]) {
          forall i | 0 <= i < |s| ensures IsSpace(s[i]) {
            if i > 0 { assert s[i] == s[1..][i - 1]; }
          }
        }
      }
    }
  }

  // ---------------------------------------------------------------------
  // Split and Join are inverse on word lists
  // ---------------------------------------------------------------------

  lemma SplitWordThen(w: string, rest: string)
    requires IsWord(w)
    requires |rest| == 0 || IsSpace(rest[0])
    ensures Split(w + rest) == [w] + Split(rest)
  {
    var s := w + rest;
    var n := WordEnd(s);
    assert forall i :: 0 <= i < |w| ==> s[i] == w[i];
    assert |w| == |s| || s[|w|] == rest[0];
    assert n == |w|;
    assert s[..n] == w;
    assert s[n..] == rest;
  }

  /** Splitting what `' '.join` produced gives back the joined words. */
  lemma {:induction false} SplitJoin(ws: seq<string>)
    requires AllWords(ws)
    ensures Split(Join(ws)) == ws
    decreases |ws|
  {
    if |ws| == 0 {
    } else if |ws| == 1 {
      SplitWordThen(ws[0], "");
      assert ws[0] + "" == ws[0];
    } else {
      var rest := Join(ws[1..]);
      SplitJoin(ws[1..]);
      assert ws[0] + " " + rest == ws[0] + (" " + rest);
      SplitWordThen(ws[0], " " + rest);
      assert (" " + rest)[1..] == rest;
      assert ws == [ws[0]] + ws[1..];
    }
  }

  /** A join of words is non-empty exactly when there is a word, and it
      begins with the first word's first character. */
  lemma {:induction false} JoinShape(ws: seq<string>)
    requires AllWords(ws)
    ensures |Join(ws)| == 0 <==> |ws| == 0
    ensures |ws| > 0 ==> Join(ws)[0] == ws[0][0]
    ensures |ws| > 0 ==> !IsSpace(Join(ws)[|Join(ws)| - 1])
    decreases |ws|
  {
    if |ws| > 1 {
      JoinShape(ws[1..]);
    }
  }

  /** `' '.join` of words never has a separator at either end, nor two
      separators in a row, nor any separator other than a plain space. */
  lemma {:induction false} JoinNormalized(ws: seq<string>)
    requires AllWords(ws)
    ensures Normalized(Join(ws))
    decreases |ws|
  {
    if |ws| > 1 {
      JoinNormalized(ws[1..]);
      JoinShape(ws[1..]);
      var w, rest := ws[0], Join(ws[1..]);
      var s := w + " " + rest;
      forall i | 0 <= i < |s| && IsSpace(s[i])
        ensures s[i] == ' ' && 0 < i < |s| - 1 && !IsSpace(s[i - 1]) && !IsSpace(s[i + 1])
      {
        if i < |w| {
          assert false;
        } else if i == |w| {
          assert s[i - 1] == w[|w| - 1];
          assert s[i + 1] == rest[0];
        } else {
          var k := i - |w| - 1;
          assert s[i] == rest[k];
          assert s[i + 1] == rest[k + 1];
          if k == 0 {
            assert false;
          }
          assert s[i - 1] == rest[k - 1];
        }
      }
    }
  }

  lemma NormalizedTail(s: string, n: nat)
    requires Normalized(s)
    requires n < |s| && IsSpace(s[n])
    ensures Normalized(s[n + 1..])
  {
    var t := s[n + 1..];
    forall i | 0 <= i < |t| && IsSpace(t[i])
      ensures t[i] == ' ' && 0 < i < |t| - 1 && !IsSpace(t[i - 1]) && !IsSpace(t[i + 1])
    {
      assert t[i] == s[n + 1 + i];
      if i == 0 {
        assert false;
      }
      assert t[i - 1] == s[n + i];
      assert t[i + 1] == s[n + 2 + i];
    }
  }

  /** Re-joining the pieces of `s` gives `s` back exactly when `s` already has
      the joined shape; otherwise its separators are rewritten. */
  lemma {:induction false} JoinSplitFixedIffNormalized(s: string)
    ensures Join(Split(s)) == s <==> Normalized(s)
    decreases |s|
  {
    if Join(Split(s)) == s {
      JoinNormalized(Split(s));
    }
    if Normalized(s) && |s| > 0 {
      assert !IsSpace(s[0]);
      var n := WordEnd(s);
      if n == |s| {
        assert s[..n] == s;
        assert s[n..] == "";
      } else {
        var t := s[n + 1..];
        assert s[n..][1..] == t;
        assert !IsSpace(s[n + 1]) && t[0] == s[n + 1];
        NormalizedTail(s, n);
        JoinSplitFixedIffNormalized(t);
        SplitEmptyIffBlank(t);
        assert Split(s) == [s[..n]] + Split(t);
        assert ([s[..n]] + Split(t))[1..] == Split(t);
        assert s == s[..n] + " " + t;
      }
    }
  }

  // ---------------------------------------------------------------------
  // Split rebuilds its input
  // ---------------------------------------------------------------------

  /** `gaps[0] + ws[0] + gaps[1] + ws[1] + ... + gaps[|ws|]`. */
  function Weave(gaps: seq<string>, ws: seq<string>): string
    requires |gaps| == |ws| + 1
  {
    if |ws| == 0 then gaps[0] else gaps[0] + ws[0] + Weave(gaps[1..], ws[1..])
  }

  /** The separator runs around the pieces of `s`. Putting them back between
      the pieces rebuilds `s`; each is blank, and every one strictly between
      two pieces is non-empty. So every piece is a maximal separator-free run,
      bounded by separators or by the ends of `s`. */
  function Gaps(s: string): (gs: seq<string>)
    ensures GapsOf(s, gs)
    decreases |s|
  {
    if |s| == 0 then [""]
    else if IsSpace(s[0]) then
      var g := Gaps(s[1..]);
      GapsAfterSpace(s, g);
      [[s[0]] + g[0]] + g[1..]
    else
      var n := WordEnd(s);
      var g := Gaps(s[n..]);
      assert s[..n] + s[n..] == s;
      GapsAfterWord(s, s[..n], s[n..], g);
      [""] + g
  }

  /** `gs` are separator runs that, put back between the pieces of `s`,
      rebuild it: all blank, the inner ones non-empty, and the first one
      non-empty when `s` starts with a separator. */
  predicate GapsOf(s: string, gs: seq<string>) {
    && |gs| == |Split(s)| + 1
    && (forall i :: 0 <= i < |gs| ==> Blank(gs[i]))
    && (forall i :: 0 < i < |gs| - 1 ==> gs[i] != "")
    && (|s| > 0 && IsSpace(s[0]) ==> gs[0] != "")
    && Weave(gs, Split(s)) == s
  }

  lemma GapsAfterSpace(s: string, g: seq<string>)
    requires |s| > 0 && IsSpace(s[0])
    requires GapsOf(s[1..], g)
    ensures GapsOf(s, [[s[0]] + g[0]] + g[1..])
  {
    WeaveGrowsFirstGap(s[0], g, Split(s[1..]));
    assert s == [s[0]] + s[1..];
  }

  lemma GapsAfterWord(s: string, w: string, t: string, g: seq<string>)
    requires s == w + t && IsWord(w)
    requires |t| == 0 || IsSpace(t[0])
    requires GapsOf(t, g)
    ensures GapsOf(s, [""] + g)
  {
    SplitWordThen(w, t);
    WeaveAddsWord(w, g, Split(t));
    assert |g| > 1 ==> |t| > 0;
    ShiftedGaps(g);
    assert (w + t)[0] == w[0];
  }

  /** One more gap in front, empty, keeps the gaps blank, and keeps the
      inner ones non-empty when the old first gap is. */
  lemma ShiftedGaps(g: seq<string>)
    requires |g| > 0 && forall i :: 0 <= i < |g| ==> Blank(g[i])
    requires forall i :: 0 < i < |g| - 1 ==> g[i] != ""
    ensures forall i :: 0 <= i < |g| + 1 ==> Blank(([""] + g)[i])
    ensures |g| > 1 && g[0] != "" ==> forall i :: 0 < i < |g| ==> ([""] + g)[i] != ""
  {
    var gs := [""] + g;
    forall i | 0 < i < |gs| ensures gs[i] == g[i - 1] {
    }
  }

  lemma WeaveAddsWord(w: string, g: seq<string>, ws: seq<string>)
    requires |g| == |ws| + 1
    ensures Weave([""] + g, [w] + ws) == w + Weave(g, ws)
  {
    var gs := [""] + g;
    var vs := [w] + ws;
    assert gs[0] == "" && vs[0] == w && gs[1..] == g && vs[1..] == ws;
    assert "" + w == w;
    assert Weave(gs, vs) == gs[0] + vs[0] + Weave(g, ws);
  }

  lemma WeaveGrowsFirstGap(c: char, gs: seq<string>, ws: seq<string>)
    requires |gs| == |ws| + 1
    ensures Weave([[c] + gs[0]] + gs[1..], ws) == [c] + Weave(gs, ws)
  {
    var hs := [[c] + gs[0]] + gs[1..];
    assert hs[1..] == gs[1..];
  }
}
